=== FILE: README.md ===
# Resource broker of node-primus-server, in Dafny

`server.js` is a real-time fan-out broker. Browser clients connect over
Primus with a `resourceId` query parameter. The server keeps the latest data
of each resource in an in-memory object, `resourceData`. A backend fetcher
answers fetch requests over ZeroMQ by pushing resource updates. The broker
writes cached data to a newly connected client. On a cache miss it asks the
fetcher for the resource. When an update arrives it stores the data and
broadcasts it to the Primus room named after the resource.

Node runs each event listener to completion, so the broker is a sequential
state machine. This model states it that way:

- `js.dfy` (`Js`): the JavaScript values involved, their truthiness, and how
  a missing `resourceId` becomes the property key `"undefined"`.
- `resource_cache.dfy` (`ResourceCache`): `resourceData` as a map from
  resource id to value, with the overwrite `Store`.
- `rooms.dfy` (`Rooms`): room membership as the broker affects it, a set of
  (room, connection) pairs. Rooms are join-only.
- `broker.dfy` (`Broker`): the state (cache and rooms), the effects a handler
  emits, and the two handlers as pure step functions.
- `runs.dfy` (`Runs`): `Run` folds a sequence of events through the handlers.
  Its lemmas state what holds across any run: no fetch deduplication, last
  writer wins, no eviction, per-resource broadcast order, and rooms that only
  grow.
- `prototype_lookup.dfy` (`PrototypeLookup`): the cache read as the code
  performs it, which also finds inherited `Object.prototype` members (see
  Findings).

The effects are `End(conn)`, `Join(conn, room)`, `WriteTo(conn, data)`,
`FetchRequest(id)` and `Broadcast(id, data)`. They appear in the order the
handler performs them.

### Behaviour of the code worth knowing

- The connection handler does not return after `end()`: an invalid
  connection still joins a room, reads the cache, and is either written to
  or causes a fetch request (server.js:43-56).
- Every connection that misses the cache sends its own fetch request; there
  is no record of requests in flight (server.js:52-56).
- Nothing deletes from `resourceData`, and departures are never tracked.
  `resourceObservers` (server.js:32) is declared but never written.
- A cache hit is decided by truthiness (server.js:52), so a cached `0`,
  `false`, `""` or `null` counts as a miss.

## Model

| member | source | states |
|---|---|---|
| Js.FalsyValues | server.js:52 | The values the hit test and the validity test treat as absent are exactly `undefined`, `null`, `false`, `0` and `""`. |
| ResourceCache.Store | server.js:91-92 | Storing `(id, data)` makes `id` hold `data`. The key set gains exactly `id`. Every other entry keeps its value. |
| ResourceCache.StoreIdempotent | server.js:91-92 | Storing the same data for the same id twice gives the same cache as storing it once. |
| ResourceCache.StoreLastWriterWins | server.js:91-92 | A second store to an id replaces the first, with no merging and no versioning. |
| ResourceCache.StoreCommutes | server.js:91-92 | Stores to different ids do not interfere. |
| Rooms.JoinRoom | server.js:48 | Joining adds the connection to the named room, changes no other room, and keeps every earlier membership. |
| Broker.IsValidConnection | server.js:103-116 | A connection is valid exactly when its `query.resourceId` is present and not the empty string. |
| Broker.ConnectEffects | server.js:43-56 | An invalid connection gets `End` first and still gets one `Join` to its query's room. After the optional `End` come exactly one `Join` and then exactly one write or one fetch. A truthy cached value is written to that client once, with no other write and no fetch. A missing or falsy one yields exactly one `FetchRequest` for the query and no write. No effect addresses any other connection. |
| Broker.HandleClientConnected | server.js:42-57 | A connect leaves the cache unchanged. The connection joins exactly the room its query names. Invalid connections are ended and still handled. The effects are an optional `End`, then one `Join`, then one write or one fetch. A truthy cached value is written once to this client only, with no fetch and no broadcast. Otherwise exactly one fetch request is sent for the query. |
| Broker.HandleResourceDataReceived | server.js:68-75 | An update sets `cache[id] := data`. It adds only `id` to the keys and leaves every other entry and all rooms unchanged. It emits exactly one `Broadcast(id, data)` carrying the value just stored. |
| Broker.DuplicateUpdateIdempotent | server.js:72-74 | Receiving the same update a second time leaves the state unchanged and broadcasts the same value again. |
| Runs.BroadcastsFollowUpdates | server.js:68-75 | Over any run, the broadcasts to room `id` carry exactly the data of the updates for `id`, one each, in arrival order. |
| Runs.LastUpdateWins | server.js:91-92 | After any run, a resource holds the data of its last update in the run, or its earlier value if no update for it arrived. |
| Runs.CacheKeysOnlyGrow | server.js:31 | After any run, the cached ids are exactly the earlier ones plus the ids of the run's updates. Nothing is ever evicted. |
| Runs.MissStep | server.js:50-56 | While `id` is a miss, a connect for `id` sends exactly one fetch for it and any other event sends none. `id` stays a miss unless a truthy update for it arrives. |
| Runs.EveryMissFetches | server.js:52-56 | There is no deduplication. While `id` is uncached or holds a falsy value, the run's fetch requests for `id` equal the number of connections for `id`. |
| Runs.RoomsOnlyGrow | server.js:48 | No run removes a membership: the memberships after a run include those before it. |
| Runs.ConnectionsStayJoined | server.js:47-48 | After a run, every connection handled in it is in the room its query names. |
| Runs.RunAppend | server.js:38-66 | `Run` dispatches each event to the Primus `connection` listener (server.js:38-40) or the ZeroMQ `message` listener (server.js:64-66). Handling `a` then `b` is handling `a + b`: the run over `b` starts in the state `a` left, and its effects follow those of `a`. |
| Runs.SubscriberInAudience | server.js:97-100 | A client that connected for `id` before an update for `id` is in room `id` when that update arrives, and the update broadcasts the new data to that room. The run handles that update in exactly that state, between the effects of the events before it and after it. |
| PrototypeLookup.LookupAsWritten | server.js:50 | `resourceData[key]` as written: an own entry wins. A never-stored name inherited from `Object.prototype` reads truthy, and any other never-stored key reads `undefined`. |
| PrototypeLookup.HandleClientConnectedAsWritten | server.js:42-57 | The handler as written leaves the same state as the corrected handler, and the same effects except the last. On a never-stored inherited name the last effect writes the built-in to the client, and no fetch is sent. |
| PrototypeLookup.LookupsDiffer | server.js:50 | The as-written read and the own-property read differ exactly on a never-stored inherited name. There the as-written read is truthy and the own read is `undefined`. |
| PrototypeLookup.HandlersDiffer | server.js:42-57 | The as-written handler and the corrected handler differ exactly when the id names an inherited member that was never stored. |
| PrototypeLookup.ToStringIsServedFromPrototype | server.js:50-56 | On a fresh server, a client asking for `toString` is written the inherited function and no fetch is sent. The corrected handler sends a fetch. |

## Left out

- Express static serving, the HTTP listener, and Primus library generation (server.js:3-25) are I/O and bootstrap.
- The ZeroMQ push and pull sockets and their listener (server.js:60-66) are transport. A fetch request is the abstract effect `FetchRequest(id)`.
- `JSON.parse` and `JSON.stringify` (server.js:69, 88) are library serialization. An update arrives as an already-parsed `Resource(id, data)`. A malformed message throws into the process-level `uncaughtException` handler, which is not modelled.
- Broker.HandleResourceDataReceived: the update's `id` is a string. The well-formed message `null` has no fields: reading `resource.id` for the log line (server.js:70) throws a TypeError into the `uncaughtException` handler (server.js:138-142), as a malformed message does, and nothing is stored. Any other message without a string `id` (a number, a string, an object lacking `id`, or one whose `id` is not a string) is stored under its coerced key, `"undefined"` when `id` is missing. That case is not modelled.
- Broker.HandleResourceDataReceived: an update whose id is `"__proto__"` is stored by the model as an ordinary entry. In the code, what `resourceData["__proto__"] = data` (server.js:92) does depends on the earlier `"__proto__"` updates. As long as no earlier one carried `null`, the object's prototype chain still reaches `Object.prototype`, so the assignment calls the inherited `__proto__` setter and stores no own entry. Object or `null` data replaces the prototype; any other data leaves it as it was. `notifyObservers` (server.js:98) then broadcasts what the getter returns, which is the current prototype. That is the data itself for object data and `undefined` for `null`. For primitive data it is the object of the latest earlier object update, or `Object.prototype` when there was none, as on a fresh server. Once a `null` update has cut the chain, the setter is no longer reachable. Every later `"__proto__"` update then stores an ordinary own entry and broadcasts its data, as the model does. A replaced prototype also changes which never-stored ids the cache read finds: object data adds that object's properties, and `null` removes the inherited `Object.prototype` names. `PrototypeLookup.LookupAsWritten` models only the unchanged prototype.
- ResourceCache.Store: holds of the model's ordinary entry. For the id `"__proto__"` the code's assignment (server.js:92) may store no own key, and reading it back may not give the data. See the `"__proto__"` line for `Broker.HandleResourceDataReceived` above.
- ResourceCache.StoreIdempotent: holds of the model's ordinary entry. In the code, storing `("__proto__", null)` twice is not idempotent, because the second store creates an own entry. See the `"__proto__"` line for `Broker.HandleResourceDataReceived` above.
- ResourceCache.StoreLastWriterWins: holds of the model's ordinary entry. In the code, a primitive store to `"__proto__"` does not replace an earlier object store. See the `"__proto__"` line for `Broker.HandleResourceDataReceived` above.
- Broker.DuplicateUpdateIdempotent: holds of the model's ordinary entry. In the code, a second `("__proto__", null)` update creates an own entry and broadcasts `null` where the first broadcast `undefined`. See the `"__proto__"` line for `Broker.HandleResourceDataReceived` above.
- Runs.BroadcastsFollowUpdates: holds of the model's ordinary entry. In the code, an update for `"__proto__"` can broadcast a prototype (after primitive data) or `undefined` (after `null`) instead of its data. See the `"__proto__"` line for `Broker.HandleResourceDataReceived` above.
- Runs.LastUpdateWins: holds of the model's ordinary entry. In the code, `"__proto__"` need not read back the data of its last update. See the `"__proto__"` line for `Broker.HandleResourceDataReceived` above.
- Runs.CacheKeysOnlyGrow: holds of the model's ordinary entry. In the code, an update for `"__proto__"` may add no own key. See the `"__proto__"` line for `Broker.HandleResourceDataReceived` above.
- Runs.SubscriberInAudience: holds of the model's ordinary entry. In the code, the broadcast of an update for `"__proto__"` carries the getter's result, which need not be the new data. See the `"__proto__"` line for `Broker.HandleResourceDataReceived` above.
- Broker.IsValidConnection: `query.resourceId` is modelled as absent or a single string. A connection without any `query` object is not modelled. For such a connection, reading `.query.resourceId` (server.js:105) throws a TypeError inside `handleClientConnected`, through `isValidConnection` (server.js:43, 109). The error reaches the `uncaughtException` handler (server.js:138-142), which closes every connection and exits the process. The Sock.JS remark at server.js:104 points at this case. A repeated parameter parsed as an array is not modelled either.
- Broker.HandleClientConnected: reads the cache as own properties (`ResourceCache.Lookup`), which is the corrected behaviour of the Findings row. The read as written is modelled by `PrototypeLookup.HandleClientConnectedAsWritten`. `PrototypeLookup.HandlersDiffer` pins exactly where the two differ: a never-stored id that names an inherited `Object.prototype` member.
- Runs.MissStep: runs the own-property read. For the code as written, a connect for a never-stored id that names an `Object.prototype` member, such as `toString`, sends no fetch even though the id is a miss (`PrototypeLookup.ToStringIsServedFromPrototype`).
- Runs.EveryMissFetches: runs the own-property read. For the code as written the fetch count is lower on ids that name inherited members, such as `toString`: those connections send no fetch (`PrototypeLookup.ToStringIsServedFromPrototype`). Only the fetch-count lemmas, this one and `Runs.MissStep`, depend on the own-property read. `Runs.LastUpdateWins`, `Runs.CacheKeysOnlyGrow`, `Runs.RoomsOnlyGrow`, `Runs.ConnectionsStayJoined` and `Runs.BroadcastsFollowUpdates` concern only the state and the broadcasts. `PrototypeLookup.HandleClientConnectedAsWritten` proves that the as-written and the corrected handler agree on those. Their one exception, the id `"__proto__"`, is listed separately above.
- The room plugin's internals are not visible, including leaving rooms on disconnect and how `room(id).write` reaches each socket. Rooms are join-only sets. `Broadcast(id, data)` is an effect, and its audience is `Rooms.Members` of room `id`. How the plugin keys a join with `undefined` is not visible either. A connection without a parameter therefore joins a separate room, `Absent`, which no update reaches, although the cache read turns a missing parameter into the key `"undefined"`.
- What the transport does with a `WriteTo` or `Join` on a connection already ended is outside the broker.
- `closeAllConnections`, `uncaughtException` and `SIGINT` (server.js:132-147) are process lifecycle.
- The logging helpers, the log calls and `resourceObservers` (server.js:32, 153-174) only log. The map is never written.
- JavaScript numbers are modelled as reals. JSON numbers are finite, so `NaN` and floating-point rounding play no part in truthiness here.
- loadtest.js is a load-generating client with no broker logic.

## Findings

| source | as written | input that shows it | evidently intended | confidence | as-written member | corrected member |
|---|---|---|---|---|---|---|
| server.js:31, 50-52 | `resourceData` is the object literal `{}`, so `resourceData[resourceId]` also finds the members inherited from `Object.prototype`. These are all truthy. | On a fresh server, connect with `resourceId=toString` (likewise `constructor`, `valueOf`, `hasOwnProperty`, …). The handler writes the inherited function to the client and sends no fetch request. | A resource never stored is a miss, and the client's connect sends a fetch request for it. | medium, not executed | PrototypeLookup.ToStringIsServedFromPrototype | Broker.HandleClientConnected |

=== FILE: broker.dfy ===
/** The event-driven broker of server.js as a pure step function. Each event is
    handled to completion; the result is the new state and the effects the
    handler emitted, in the order it emitted them. */
module Broker {
  import opened Js
  import opened ResourceCache
  import opened Rooms

  /** A client connection as the handler sees it: its identity and its query. */
  datatype Connection = Connection(id: ConnId, query: QueryParam)

  /** An update from the backend, already parsed into its `id` and `data` fields. */
  datatype Resource = Resource(id: string, data: Value)

  /** The broker's state: the resource cache and the room memberships. */
  datatype State = State(cache: Cache, rooms: Memberships)

  /** What a handler does to the world outside its state. */
  datatype Effect =
    | End(conn: ConnId)                  // clientConnection.end()
    | Join(conn: ConnId, room: QueryParam) // clientConnection.join(resourceId)
    | WriteTo(conn: ConnId, data: Value)  // clientConnection.write(data)
    | FetchRequest(id: QueryParam)        // push {id: resourceId} to the fetcher
    | Broadcast(resource: string, data: Value) // primus.room(resourceId).write(data)

  datatype Event =
    | Connected(conn: Connection)         // primus 'connection'
    | DataReceived(resource: Resource)    // pull socket 'message'

  datatype Outcome = Outcome(state: State, effects: seq<Effect>)

  /** The state at start-up: nothing cached, nobody in any room. */
  const Initial := State(ResourceCache.Empty, {})

  /** True when an effect acts on connection `c` alone. */
  predicate AddressedTo(e: Effect, c: ConnId) {
    (e.End? || e.Join? || e.WriteTo?) && e.conn == c
  }

  /** A connection is valid when its `resourceId` is truthy. */
  function IsValidConnection(conn: Connection): (ok: bool)
    ensures ok <==> conn.query.Given? && conn.query.s != ""
  {
    Truthy(AsValue(conn.query))
  }

  /** The effects of the connection handler once the cached value `existing`
      has been read: end an invalid connection but carry on, join the room
      named by the query, then serve the cached value to this client alone or
      ask the fetcher for it. */
  function ConnectEffects(conn: Connection, existing: Value): (effects: seq<Effect>)
    ensures multiset(effects)[Join(conn.id, conn.query)] == 1
    ensures forall e :: e in effects && e.Join? ==> e == Join(conn.id, conn.query)
    ensures End(conn.id) in effects <==> !IsValidConnection(conn)
    ensures !IsValidConnection(conn) ==> |effects| == 3 && effects[0] == End(conn.id)
    // one join, then exactly one write or one fetch
    ensures |effects| == (if IsValidConnection(conn) then 2 else 3)
    ensures effects[|effects| - 2] == Join(conn.id, conn.query)
    ensures effects[|effects| - 1].WriteTo? || effects[|effects| - 1].FetchRequest?
    ensures Truthy(existing) ==>
              WriteTo(conn.id, existing) in effects
              && (forall e :: e in effects && e.WriteTo? ==> e == WriteTo(conn.id, existing))
              && forall e :: e in effects ==> !e.FetchRequest?
    ensures !Truthy(existing) ==>
              multiset(effects)[FetchRequest(conn.query)] == 1
              && forall e :: e in effects ==> !e.WriteTo?
    ensures forall e :: e in effects && e.FetchRequest? ==> e.id == conn.query
    ensures forall e :: e in effects ==> AddressedTo(e, conn.id) || e.FetchRequest?
  {
    var served :=
      if Truthy(existing) then WriteTo(conn.id, existing)
      else FetchRequest(conn.query);
    if IsValidConnection(conn) then [Join(conn.id, conn.query), served]
    else [End(conn.id), Join(conn.id, conn.query), served]
  }

  /** The connection handler given the value it read from the cache. */
  function ConnectWith(s: State, conn: Connection, existing: Value): Outcome {
    Outcome(State(s.cache, JoinRoom(s.rooms, conn.query, conn.id)),
            ConnectEffects(conn, existing))
  }

  /** The cached value a connection is served, read by its property key. */
  function Cached(s: State, conn: Connection): Value {
    Lookup(s.cache, PropertyKey(conn.query))
  }

  /** `handleClientConnected`. */
  function HandleClientConnected(s: State, conn: Connection): (r: Outcome)
    // the cache is only read
    ensures r.state.cache == s.cache
    // the connection joins exactly the room named by its query, and no other
    ensures Members(r.state.rooms, conn.query) == Members(s.rooms, conn.query) + {conn.id}
    ensures forall room :: room != conn.query ==>
              Members(r.state.rooms, room) == Members(s.rooms, room)
    ensures multiset(r.effects)[Join(conn.id, conn.query)] == 1
    ensures forall e :: e in r.effects && e.Join? ==> e == Join(conn.id, conn.query)
    // an invalid connection is ended first, and the handler goes on regardless
    ensures End(conn.id) in r.effects <==> !IsValidConnection(conn)
    ensures !IsValidConnection(conn) ==>
              |r.effects| == 3 && r.effects[0] == End(conn.id)
    // one join, then exactly one write or one fetch
    ensures |r.effects| == (if IsValidConnection(conn) then 2 else 3)
    ensures r.effects[|r.effects| - 2] == Join(conn.id, conn.query)
    ensures r.effects[|r.effects| - 1].WriteTo? || r.effects[|r.effects| - 1].FetchRequest?
    // a truthy cached value is written to this client alone, without a fetch
    ensures Truthy(Cached(s, conn)) ==>
              WriteTo(conn.id, Cached(s, conn)) in r.effects
              && (forall e :: e in r.effects && e.WriteTo? ==> e == WriteTo(conn.id, Cached(s, conn)))
              && forall e :: e in r.effects ==> !e.FetchRequest?
    // a missing or falsy cached value asks for exactly one fetch and writes nothing
    ensures !Truthy(Cached(s, conn)) ==>
              multiset(r.effects)[FetchRequest(conn.query)] == 1
              && forall e :: e in r.effects ==> !e.WriteTo?
    ensures forall e :: e in r.effects && e.FetchRequest? ==> e.id == conn.query
    // every effect concerns this connection, except the fetch request; none broadcasts
    ensures forall e :: e in r.effects ==> AddressedTo(e, conn.id) || e.FetchRequest?
  {
    ConnectWith(s, conn, Cached(s, conn))
  }

  /** `handleResourceDataReceived`: store the data, then broadcast the stored
      value to the room named by the id. */
  function HandleResourceDataReceived(s: State, res: Resource): (r: Outcome)
    ensures r.state.cache.Keys == s.cache.Keys + {res.id}
    ensures r.state.cache[res.id] == res.data
    ensures forall k :: k in s.cache && k != res.id ==> r.state.cache[k] == s.cache[k]
    ensures r.state.rooms == s.rooms
    ensures r.effects == [Broadcast(res.id, res.data)]
  {
    var cache' := Store(s.cache, res.id, res.data);
    Outcome(State(cache', s.rooms), [Broadcast(res.id, Lookup(cache', res.id))])
  }

  /** The two event listeners. */
  function Handle(s: State, e: Event): Outcome {
    match e
    case Connected(conn) => HandleClientConnected(s, conn)
    case DataReceived(res) => HandleResourceDataReceived(s, res)
  }

  /** Receiving the same update twice leaves the state as receiving it once,
      and the second delivery broadcasts again. */
  lemma DuplicateUpdateIdempotent(s: State, res: Resource)
    ensures var once := HandleResourceDataReceived(s, res);
            var twice := HandleResourceDataReceived(once.state, res);
            twice.state == once.state && twice.effects == once.effects
  {
  }
}

=== FILE: js.dfy ===
/** The JavaScript values the broker handles: the payload of a resource update
    and the `resourceId` query parameter a client connects with. */
module Js {

  /** A value as the broker sees it after parsing. Objects and arrays are opaque
      and carried as their serialized text; `Builtin` stands for a value the
      runtime supplies rather than the data (a member inherited from
      `Object.prototype`, such as the `toString` function). */
  datatype Value =
    | Undefined
    | Null
    | Bool(b: bool)
    | Num(n: real)
    | Str(s: string)
    | Object(text: string)
    | Builtin(name: string)

  /** JavaScript truthiness, as `if (v)` and `!v` decide it. */
  predicate Truthy(v: Value) {
    match v
    case Undefined => false
    case Null => false
    case Bool(b) => b
    case Num(n) => n != 0.0
    case Str(s) => s != ""
    case Object(_) => true
    case Builtin(_) => true
  }

  /** The falsy values are exactly `undefined`, `null`, `false`, `0` and `""`. */
  lemma FalsyValues(v: Value)
    ensures !Truthy(v) <==> v in {Undefined, Null, Bool(false), Num(0.0), Str("")}
  {
  }

  /** `query.resourceId` of a connection: missing, or the string the transport parsed. */
  datatype QueryParam = Absent | Given(s: string)

  /** The value the expression `query.resourceId` evaluates to. */
  function AsValue(q: QueryParam): Value {
    match q
    case Absent => Undefined
    case Given(s) => Str(s)
  }

  /** The property key used when the parameter indexes a plain object:
      a missing parameter is `undefined`, whose key is the string "undefined". */
  function PropertyKey(q: QueryParam): string {
    match q
    case Absent => "undefined"
    case Given(s) => s
  }
}

=== FILE: prototype_lookup.dfy ===
/** `resourceData` is a plain object literal, so reading `resourceData[key]`
    also finds the members every object inherits from `Object.prototype`.
    This module models that read as the code performs it and relates it to the
    own-property read the rest of the model uses. */
module PrototypeLookup {
  import opened Js
  import opened ResourceCache
  import opened Broker

  /** The property names an empty object literal inherits in Node. Each one
      reads as a function, or for `__proto__` as `Object.prototype` itself;
      all are truthy. */
  const InheritedKeys: set<string> := {
    "constructor", "hasOwnProperty", "isPrototypeOf", "propertyIsEnumerable",
    "toString", "toLocaleString", "valueOf", "__proto__",
    "__defineGetter__", "__defineSetter__", "__lookupGetter__", "__lookupSetter__"
  }

  /** `resourceData[key]` as written: an own entry, else an inherited member,
      else `undefined`. */
  function LookupAsWritten(c: Cache, key: string): (v: Value)
    // an own entry wins; a never-stored inherited name reads truthy
    ensures key in c ==> v == c[key]
    ensures key !in c && key in InheritedKeys ==> Truthy(v)
    ensures key !in c && key !in InheritedKeys ==> v == Undefined
  {
    if key in c then c[key]
    else if key in InheritedKeys then Builtin(key)
    else Undefined
  }

  /** The two reads agree except on an inherited name that was never stored,
      where the as-written read finds a truthy built-in instead of `undefined`. */
  lemma LookupsDiffer(c: Cache, key: string)
    ensures LookupAsWritten(c, key) != Lookup(c, key) <==> key !in c && key in InheritedKeys
    ensures LookupAsWritten(c, key) != Lookup(c, key) ==>
              Truthy(LookupAsWritten(c, key)) && Lookup(c, key) == Undefined
  {
  }

  /** `handleClientConnected` as written, reading the cache with inherited members. */
  function HandleClientConnectedAsWritten(s: State, conn: Connection): (r: Outcome)
    // the state and every effect but the last agree with the corrected handler
    ensures r.state == HandleClientConnected(s, conn).state
    ensures |r.effects| == |HandleClientConnected(s, conn).effects|
    ensures r.effects[..|r.effects| - 1] == HandleClientConnected(s, conn).effects[..|r.effects| - 1]
    // a never-stored inherited name is served the built-in, with no fetch
    ensures var key := PropertyKey(conn.query);
            key !in s.cache && key in InheritedKeys ==>
              r.effects[|r.effects| - 1] == WriteTo(conn.id, Builtin(key))
              && forall e :: e in r.effects ==> !e.FetchRequest?
  {
    ConnectWith(s, conn, LookupAsWritten(s.cache, PropertyKey(conn.query)))
  }

  /** The handler as written differs from the corrected one exactly on a
      connection whose id names an inherited member and was never stored. */
  lemma HandlersDiffer(s: State, conn: Connection)
    ensures var key := PropertyKey(conn.query);
            (HandleClientConnectedAsWritten(s, conn) != HandleClientConnected(s, conn)
             <==> key !in s.cache && key in InheritedKeys)
  {
  }

  /** A client of a fresh server asking for resource "toString" is written the
      inherited `toString` function and no fetch request is sent, so it never
      receives the resource until an update for it happens to arrive. The
      corrected handler asks the fetcher instead. */
  lemma ToStringIsServedFromPrototype()
    ensures var conn := Connection("client", Given("toString"));
            var asWritten := HandleClientConnectedAsWritten(Initial, conn);
            && WriteTo("client", Builtin("toString")) in asWritten.effects
            && FetchRequest(Given("toString")) !in asWritten.effects
            && FetchRequest(Given("toString")) in HandleClientConnected(Initial, conn).effects
  {
  }
}

=== FILE: resource_cache.dfy ===
/** The in-memory resource cache `resourceData` (server.js:31): resource id to
    the last data received for it. Entries are only ever written, never deleted. */
module ResourceCache {
  import opened Js

  type Cache = map<string, Value>

  /** The empty cache the server starts with. */
  const Empty: Cache := map[]

  /** Reading `resourceData[key]` as an own property: a key never stored reads
      as `undefined`. */
  function Lookup(c: Cache, key: string): Value {
    if key in c then c[key] else Undefined
  }

  /** `resourceData[id] = data`: an unconditional overwrite of one entry. */
  function Store(c: Cache, id: string, data: Value): (c': Cache)
    ensures id in c' && c'[id] == data
    ensures c'.Keys == c.Keys + {id}
    ensures forall k :: k in c && k != id ==> c'[k] == c[k]
  {
    c[id := data]
  }

  /** Storing the same data twice leaves the cache as storing it once. */
  lemma StoreIdempotent(c: Cache, id: string, data: Value)
    ensures Store(Store(c, id, data), id, data) == Store(c, id, data)
  {
  }

  /** Last writer wins: a second store to the same id hides the first. */
  lemma StoreLastWriterWins(c: Cache, id: string, first: Value, second: Value)
    ensures Store(Store(c, id, first), id, second) == Store(c, id, second)
  {
  }

  /** Stores to different ids do not interfere. */
  lemma StoreCommutes(c: Cache, id1: string, d1: Value, id2: string, d2: Value)
    requires id1 != id2
    ensures Store(Store(c, id1, d1), id2, d2) == Store(Store(c, id2, d2), id1, d1)
  {
  }
}

=== FILE: rooms.dfy ===
/** Room membership as the room plugin keeps it, seen from the broker: a
    connection joins the room named by its resource id and is never removed
    by anything the broker does. */
module Rooms {
  import opened Js

  /** The identity the transport gives a connection. */
  type ConnId = string

  /** Every (room, connection) pair that joined. Rooms are named by the raw
      query parameter. How the room plugin keys a join with `undefined` is not
      visible, so a connection without a parameter joins the separate room
      `Absent`, which no update broadcasts to; the cache read, by contrast,
      turns a missing parameter into the key "undefined". */
  type Memberships = set<(QueryParam, ConnId)>

  /** The connections that joined `room`. */
  function Members(joined: Memberships, room: QueryParam): set<ConnId> {
    set m | m in joined && m.0 == room :: m.1
  }

  /** `connection.join(room)`: adds one connection to one room. */
  function JoinRoom(joined: Memberships, room: QueryParam, c: ConnId): (joined': Memberships)
    ensures Members(joined', room) == Members(joined, room) + {c}
    ensures forall other :: other != room ==> Members(joined', other) == Members(joined, other)
    ensures joined <= joined'
  {
    joined + {(room, c)}
  }
}

=== FILE: runs.dfy ===
/** Sequences of events handled one after another, as Node's event loop runs
    each listener to completion, and what holds of every such run. */
module Runs {
  import opened Js
  import opened ResourceCache
  import opened Rooms
  import opened Broker

  /** Handles `events` in order from `s` with the per-event handler `step`;
      the effects of all handlers in order. */
  function Fold(step: (State, Event) -> Outcome, s: State, events: seq<Event>): Outcome
    decreases |events|
  {
    if |events| == 0 then Outcome(s, [])
    else
      var first := step(s, events[0]);
      var rest := Fold(step, first.state, events[1..]);
      Outcome(rest.state, first.effects + rest.effects)
  }

  /** The broker's event loop: each event handled to completion, in order. */
  function Run(s: State, events: seq<Event>): Outcome {
    Fold(Handle, s, events)
  }

  /** The data of the updates for resource `id` in `events`, in arrival order. */
  function UpdatesFor(events: seq<Event>, id: string): seq<Value>
    decreases |events|
  {
    if |events| == 0 then []
    else
      (if events[0].DataReceived? && events[0].resource.id == id
       then [events[0].resource.data] else [])
      + UpdatesFor(events[1..], id)
  }

  /** The data of the broadcasts to room `id` in `effects`, in emission order. */
  function BroadcastsTo(effects: seq<Effect>, id: string): seq<Value>
    decreases |effects|
  {
    if |effects| == 0 then []
    else
      (if effects[0].Broadcast? && effects[0].resource == id
       then [effects[0].data] else [])
      + BroadcastsTo(effects[1..], id)
  }

  /** The ids of all updates in `events`. */
  function UpdatedIds(events: seq<Event>): set<string>
    decreases |events|
  {
    if |events| == 0 then {}
    else
      (if events[0].DataReceived? then {events[0].resource.id} else {})
      + UpdatedIds(events[1..])
  }

  /** How many connections in `events` asked for resource `q`. */
  function ConnectsFor(events: seq<Event>, q: QueryParam): nat
    decreases |events|
  {
    if |events| == 0 then 0
    else
      (if events[0].Connected? && events[0].conn.query == q then 1 else 0)
      + ConnectsFor(events[1..], q)
  }

  lemma {:induction false} BroadcastsToAppend(a: seq<Effect>, b: seq<Effect>, id: string)
    ensures BroadcastsTo(a + b, id) == BroadcastsTo(a, id) + BroadcastsTo(b, id)
    decreases |a|
  {
    if |a| == 0 {
      assert a + b == b;
    } else {
      assert (a + b)[1..] == a[1..] + b;
      BroadcastsToAppend(a[1..], b, id);
    }
  }

  /** One event broadcasts to room `id` the data of that event if it is an
      update for `id`, and nothing otherwise. */
  lemma BroadcastStep(s: State, e: Event, id: string)
    ensures BroadcastsTo(Handle(s, e).effects, id) ==
            if e.DataReceived? && e.resource.id == id then [e.resource.data] else []
  {
    match e
    case Connected(conn) =>
      NoBroadcastIn(Handle(s, e).effects, id);
    case DataReceived(res) =>
      var effects := Handle(s, e).effects;
      assert effects == [Broadcast(res.id, res.data)];
      assert effects[1..] == [];
  }

  /** Updates for one resource are broadcast to its room in the order they
      arrived, once each, whatever else happens in between. */
  lemma {:induction false} BroadcastsFollowUpdates(s: State, events: seq<Event>, id: string)
    ensures BroadcastsTo(Run(s, events).effects, id) == UpdatesFor(events, id)
    decreases |events|
  {
    if |events| > 0 {
      var first := Handle(s, events[0]);
      var rest := Run(first.state, events[1..]);
      assert Run(s, events).effects == first.effects + rest.effects;
      BroadcastsFollowUpdates(first.state, events[1..], id);
      BroadcastsToAppend(first.effects, rest.effects, id);
      BroadcastStep(s, events[0], id);
    }
  }

  lemma {:induction false} NoBroadcastIn(effects: seq<Effect>, id: string)
    requires forall e :: e in effects ==> !e.Broadcast?
    ensures BroadcastsTo(effects, id) == []
    decreases |effects|
  {
    if |effects| > 0 {
      assert effects[0] in effects;
      NoBroadcastIn(effects[1..], id);
    }
  }

  /** What one event does to the cache: an update stores its data, a
      connection leaves the cache as it was. */
  lemma CacheStep(s: State, e: Event)
    ensures Handle(s, e).state.cache ==
            if e.DataReceived? then Store(s.cache, e.resource.id, e.resource.data) else s.cache
  {
  }

  /** Last writer wins: after any run, a resource holds the data of its last
      update, or what it held before when no update for it arrived. */
  lemma {:induction false} LastUpdateWins(s: State, events: seq<Event>, id: string)
    ensures var updates := UpdatesFor(events, id);
            Lookup(Run(s, events).state.cache, id) ==
              if |updates| == 0 then Lookup(s.cache, id) else updates[|updates| - 1]
    decreases |events|
  {
    if |events| > 0 {
      var first := Handle(s, events[0]);
      assert Run(s, events).state == Run(first.state, events[1..]).state;
      CacheStep(s, events[0]);
      LastUpdateWins(first.state, events[1..], id);
    }
  }

  /** Nothing evicts: the cached ids after a run are those before it plus the
      ids of every update in the run. */
  lemma {:induction false} CacheKeysOnlyGrow(s: State, events: seq<Event>)
    ensures Run(s, events).state.cache.Keys == s.cache.Keys + UpdatedIds(events)
    decreases |events|
  {
    if |events| > 0 {
      var first := Handle(s, events[0]);
      assert Run(s, events).state == Run(first.state, events[1..]).state;
      CacheStep(s, events[0]);
      CacheKeysOnlyGrow(first.state, events[1..]);
    }
  }

  /** No update in `events` stores a truthy value for `id`. */
  predicate KeepsMissing(events: seq<Event>, id: string) {
    forall e :: e in events && e.DataReceived? && e.resource.id == id ==> !Truthy(e.resource.data)
  }

  lemma CountAppend(a: seq<Effect>, b: seq<Effect>, x: Effect)
    ensures multiset(a + b)[x] == multiset(a)[x] + multiset(b)[x]
  {
    assert multiset(a + b) == multiset(a) + multiset(b);
  }

  /** One event while `id` is a miss: a connection for `id` sends exactly one
      fetch request for it, any other event sends none, and `id` stays a miss
      unless a truthy update for it arrives. */
  lemma MissStep(s: State, e: Event, id: string)
    requires !Truthy(Lookup(s.cache, id))
    requires e.DataReceived? && e.resource.id == id ==> !Truthy(e.resource.data)
    ensures !Truthy(Lookup(Handle(s, e).state.cache, id))
    ensures multiset(Handle(s, e).effects)[FetchRequest(Given(id))] ==
            if e.Connected? && e.conn.query == Given(id) then 1 else 0
  {
    CacheStep(s, e);
    match e
    case Connected(conn) =>
      var effects := ConnectEffects(conn, Cached(s, conn));
      assert Handle(s, e).effects == effects;
      if conn.query == Given(id) {
        assert Cached(s, conn) == Lookup(s.cache, id);
      } else {
        assert FetchRequest(Given(id)) !in effects;
      }
    case DataReceived(res) =>
      assert Handle(s, e).effects == [Broadcast(res.id, res.data)];
  }

  /** No deduplication: while the cached value for `id` stays missing or
      falsy, every connection for `id` sends its own fetch request, so N such
      connections before a truthy update produce N requests. */
  lemma {:induction false} EveryMissFetches(s: State, events: seq<Event>, id: string)
    requires !Truthy(Lookup(s.cache, id))
    requires KeepsMissing(events, id)
    ensures multiset(Run(s, events).effects)[FetchRequest(Given(id))] ==
            ConnectsFor(events, Given(id))
    decreases |events|
  {
    if |events| > 0 {
      var first := Handle(s, events[0]);
      var rest := Run(first.state, events[1..]);
      assert Run(s, events).effects == first.effects + rest.effects;
      assert events[0] in events;
      MissStep(s, events[0], id);
      assert KeepsMissing(events[1..], id) by {
        forall e | e in events[1..] ensures e in events { }
      }
      EveryMissFetches(first.state, events[1..], id);
      CountAppend(first.effects, rest.effects, FetchRequest(Given(id)));
    }
  }

  /** Rooms are join-only: a run never removes a connection from a room. */
  lemma {:induction false} RoomsOnlyGrow(s: State, events: seq<Event>)
    ensures s.rooms <= Run(s, events).state.rooms
    decreases |events|
  {
    if |events| > 0 {
      var first := Handle(s, events[0]);
      RoomsOnlyGrow(first.state, events[1..]);
    }
  }

  /** After a run, every connection handled in it is in the room named by its
      query. */
  lemma {:induction false} ConnectionsStayJoined(s: State, events: seq<Event>, i: nat)
    requires i < |events| && events[i].Connected?
    ensures events[i].conn.id in Members(Run(s, events).state.rooms, events[i].conn.query)
    decreases |events|
  {
    var first := Handle(s, events[0]);
    var conn := events[i].conn;
    if i == 0 {
      assert conn.id in Members(first.state.rooms, conn.query);
      RoomsOnlyGrow(first.state, events[1..]);
      assert (conn.query, conn.id) in Run(s, events).state.rooms;
    } else {
      ConnectionsStayJoined(first.state, events[1..], i - 1);
    }
  }

  /** Folding `a` then `b` is folding `a + b`: the fold over `b` starts in the
      state `a` left, and its effects follow those of `a`. */
  lemma {:induction false} FoldAppend(step: (State, Event) -> Outcome, s: State, a: seq<Event>, b: seq<Event>)
    ensures Fold(step, s, a + b).state == Fold(step, Fold(step, s, a).state, b).state
    ensures Fold(step, s, a + b).effects ==
            Fold(step, s, a).effects + Fold(step, Fold(step, s, a).state, b).effects
    decreases |a|
  {
    if |a| == 0 {
      assert a + b == b;
    } else {
      var first := step(s, a[0]);
      assert (a + b)[0] == a[0];
      assert (a + b)[1..] == a[1..] + b;
      FoldAppend(step, first.state, a[1..], b);
    }
  }

  /** The fold handles `events[j]` in the state the fold over `events[..j]`
      left, between the effects of the events before and after it. */
  lemma FoldAt(step: (State, Event) -> Outcome, s: State, events: seq<Event>, j: nat)
    requires j < |events|
    ensures var before := Fold(step, s, events[..j]).state;
            var at := step(before, events[j]);
            Fold(step, s, events).effects ==
              Fold(step, s, events[..j]).effects + at.effects
              + Fold(step, at.state, events[j + 1..]).effects
  {
    assert events == events[..j] + events[j..];
    FoldAppend(step, s, events[..j], events[j..]);
    assert events[j..][0] == events[j] && events[j..][1..] == events[j + 1..];
  }

  /** Handling `a` then `b` is handling `a + b`. */
  lemma RunAppend(s: State, a: seq<Event>, b: seq<Event>)
    ensures Run(s, a + b).state == Run(Run(s, a).state, b).state
    ensures Run(s, a + b).effects == Run(s, a).effects + Run(Run(s, a).state, b).effects
  {
    FoldAppend(Handle, s, a, b);
  }

  /** A subscriber of `id` that connected before an update for `id` is in the
      room that update is broadcast to, with the data just received. */
  lemma SubscriberInAudience(s: State, events: seq<Event>, i: nat, j: nat)
    requires i < j < |events|
    requires events[i].Connected? && events[j].DataReceived?
    requires events[i].conn.query == Given(events[j].resource.id)
    ensures var before := Run(s, events[..j]).state;
            var res := events[j].resource;
            && events[i].conn.id in Members(before.rooms, Given(res.id))
            && Handle(before, events[j]).effects == [Broadcast(res.id, res.data)]
            // and `before` is the state in which the whole run handles events[j]
            && Run(s, events).effects ==
                 Run(s, events[..j]).effects + [Broadcast(res.id, res.data)]
                 + Run(Handle(before, events[j]).state, events[j + 1..]).effects
  {
    assert events[..j][i] == events[i];
    ConnectionsStayJoined(s, events[..j], i);
    FoldAt(Handle, s, events, j);
  }
}
